=== FILE: README.md ===
# Pi-Tray server core, modelled in Dafny

The Pi-Tray server backs a grid of buttons ("tray"). Each cell of the grid is a
JSON file `rows/<row>/<col>.json` in the server's data directory. The module
`src/data.ts`, once loaded, rebuilds its in-memory grid from that directory tree
whenever the tree changes, and derives the grid's shape from the largest row and
column keys it loaded. `register_notifiers(ws)` (`src/notifiers.ts`) gives a
connection a notifier that remembers the shape at registration. After every
reload the notifier sends a `size` message whenever the current shape differs
from that remembered shape. The remembered shape is never updated, so an
unchanged non-original shape is sent again on every reload, and a return to the
original shape sends nothing. `load_plugin` (`src/plugins.ts`) loads a plugin
module afresh, checks that it exports a `handle_push` function, and fills in a
default `display_name`. The server entry point (`src/index.ts`) calls none of
these: it greets each connection and echoes every message back.

This project models that core as immutable values and pure functions:

- `wrappers.dfy` (`Wrappers`): `Option` and `Result`.
- `sets.dfy` (`Sets`): largest and smallest element of a finite set of integers, the way `Math.max` and an ascending sort pick them.
- `maps.dfy` (`Maps`): equality of two maps shown key by key.
- `numerals.dfy` (`Numerals`): the JavaScript primitives that decide which directory entries count. These are `parseInt(s, 10)` (leading white space, optional sign, maximal digit run), `Number.prototype.toString` on integers, `endsWith`, and `replace` with a string pattern, which removes only the first occurrence.
- `types.dfy` (`Types`): JSON values, `CellData` and its defaults, `PluginReference`, the recursive configuration-template field type, and the `Plugin` interface.
- `grid_data.dfy` (`GridData`): the directory tree (`Node`), the reload, the grid shape, the listener registry and the watch callback (`src/data.ts`).
- `notifiers.dfy` (`Notifiers`): the per-connection shape notifier (`src/notifiers.ts`).
- `plugins.dfy` (`Plugins`): `load_plugin` with its module-cache eviction (`src/plugins.ts`).

Some things cannot be modelled directly, so they become parameters:

- The directory tree is a value (`Tree`).
- `JSON.parse` of a cell file is a parser function (`CellParser`) returning `Option<CellData>`.
- Whether `ws.send` throws on a connection is a function `sendThrows`. It is per connection and fixed over a run of watch events.
- The plugin directory on disk is a map from module name to module (`ModuleDirectory`).

A reload is given twice:

- `GridData.Reload` is a declarative reference.
- `GridData.ReloadAllRows` and `GridData.ReloadRow` are loops over each row (column) index once, in ascending order, each row started from an empty map. Their contracts prove them equal to the reference.

The grid has no declared size: its shape is derived from the directory keys alone. The only message the grid and its notifiers send is `size`.

Two behaviours of the code that the model keeps:

- A row is always read back from the path `row_idx.toString()`. So a directory `07` is read from `7`. If `7` is a plain file, listing it throws an exception nothing catches. The model reports this as `Failure(RowIsNotADirectory(7))`, and no listener runs after it.
- A cell's column comes from the name with its first `.json` removed, so `1.json2.json` is column 12. The cell is then read from exactly `${col}.json`, so `1x.json` is column 1, read from `1.json`.

## Model

| member | source | states |
|---|---|---|
| `GridData.ShapeOf` | src/data.ts:47-74 | rows is 0 exactly when no row index is non-negative; otherwise rows is the largest row index + 1. cols is 0 when rows is 0, and otherwise 1 + the largest column index over all rows, or 0 when none is non-negative |
| `GridData.CellsWithinShape` | src/data.ts:47-73 | every loaded cell at non-negative (r, c) has r < rows and c < cols |
| `GridData.ShapeDependsOnKeysOnly` | src/data.ts:62-73 | two grids with the same row keys and the same column keys per row have the same shape, whatever the cell contents |
| `GridData.EmptyRowsHaveNoColumns` | src/data.ts:62-73 | rows that exist but are all empty give rows > 0 and cols = 0 |
| `GridData.ReloadAllRows` | src/data.ts:79-94 | the reload loop equals the declarative reload; it visits each row index once, in strictly ascending order; it visits every row index some directory name stands for, or, when it throws, exactly those up to the failing row |
| `GridData.ReloadRow` | src/data.ts:100-120 | the column loop over each column index once, in ascending order, started from an empty row, builds exactly the declarative row: one cell per column some entry stands for, read from `${c}.json` and kept only when it parses |
| `GridData.LoadedRowsAreRowDirectories` | src/data.ts:84-115 | after a successful reload, row i is present (possibly empty) iff the entry named `i.toString()` is a directory, and it holds that directory's cells |
| `GridData.LoadedCellsAreParsedFiles` | src/data.ts:134-152 | column c is present iff the entry named `${c}.json` is a file that parses, and then it holds exactly the parsed value |
| `GridData.FailedParseDropsOnlyThatCell` | src/data.ts:140-152 | a cell file that fails to parse removes only its own column; sibling cells load unchanged |
| `GridData.OtherCellFilesNeverRead` | src/data.ts:134-138 | changing an entry that is not `${c}.json` for any c never changes a row's cells |
| `GridData.NonNumericEntryIgnored` | src/data.ts:84-88 | removing an entry whose name does not parse as an integer leaves the reload unchanged |
| `GridData.PlainFileIgnoredUnlessRowPath` | src/data.ts:84-105 | a plain file is never a row; removing one that is not the path of a visited row leaves the reload unchanged |
| `GridData.RowPathThatIsAFileThrows` | src/data.ts:100-109 | a numeric directory whose row path `i.toString()` is a plain file makes the reload throw, at a row no larger than i |
| `GridData.RowIndexOfRowDirName` | src/data.ts:86-101 | the path a row is read back from parses to that same row |
| `GridData.ColumnIndexOfCellFileName` | src/data.ts:111-134 | the file a cell is read from stands for that same column |
| `GridData.TrailingJunkColumnExample` | src/data.ts:109-138 | `1x.json` stands for column 1, which is read from `1.json` |
| `GridData.FirstOccurrenceColumnExample` | src/data.ts:111 | `1.json2.json` stands for column 12, because only the first `.json` is removed |
| `GridData.LeadingZeroRowExample` | src/data.ts:86-101 | a directory `07` stands for row 7, whose path is `7` |
| `GridData.AddRowsChangedListener` | src/data.ts:156-164 | registration appends one listener; earlier listeners keep their places and the rows are untouched |
| `GridData.NotifyAll` | src/data.ts:189-195 | every registered listener runs exactly once, in registration order, and each outcome is that listener's own |
| `GridData.RejectionIsIsolated` | src/data.ts:189-195 | a rejecting listener does not stop later ones; each later listener settles as if the rejecting one were absent |
| `GridData.OnRowsDirectoryChanged` | src/data.ts:173-196 | the watch callback replaces the rows with a reload of the current tree, keeps the listeners, and runs each listener against the new rows; a reload that throws runs no listener |
| `GridData.ReloadIsIdempotent` | src/data.ts:79-94 | a second watch event on an unchanged tree reproduces the first outcome exactly |
| `GridData.StartupAgreesWithWatch` | src/data.ts:166-183 | the load at start-up and a later watch event on the same tree succeed or fail together, load the same rows, and fail at the same row |
| `Numerals.ParseIntOfIntToString` | src/data.ts:86-101 | `parseInt(i.toString(), 10)` is i for every integer i |
| `Numerals.RemoveFirstOfSuffix` | src/data.ts:111 | removing the first occurrence of a pattern from `x + pattern` leaves `x` whenever `x` does not contain the pattern's first character, as with `<digits>.json` |
| `Notifiers.RegisterNotifiers` | src/notifiers.ts:5-24 | registration adds exactly one listener for the connection, whose baseline is the shape at registration; earlier listeners are unchanged |
| `Notifiers.OnRowsChanged` | src/notifiers.ts:7-21 | at most one message; none when the current shape equals the baseline in rows and cols; otherwise one `size` message on that connection carrying the current shape, or a rejection when the send throws |
| `Notifiers.SizeMessage` | src/notifiers.ts:17-20 | the message reads back as the shape it was built from |
| `Notifiers.BaselinesNeverChange` | src/notifiers.ts:6-21 | over any run of watch events every notifier keeps the baseline captured at registration |
| `Notifiers.RoundSends` | src/data.ts:189-195 | one round of notifications sends exactly one `size` message with the current shape to each notifier, in registration order, whose captured shape differs and whose send does not throw, and nothing else |
| `Notifiers.ConstantShapeReplaySends` | src/notifiers.ts:6-21 | over any run of watch events that all reload to the same shape, no event crashes and every event sends that same round of `size` messages again |
| `Notifiers.RepeatedReloadsResendSize` | src/notifiers.ts:6-21 | two reloads in a row at the same non-baseline shape each send the same `size` message |
| `Notifiers.BackToBaselineSendsNothing` | src/notifiers.ts:6-13 | after a reload that sent `size`, a reload back to the baseline shape sends nothing |
| `Notifiers.ContentEditsSendTheSame` | src/notifiers.ts:7-13 | trees whose reloads have the same row and column keys produce identical notifications, whatever the cell contents |
| `Notifiers.NewNotifierSilentUntilShapeChanges` | src/notifiers.ts:6-13 | a notifier registered now sends nothing on a reload that keeps the current shape |
| `Plugins.Require` | src/plugins.ts:123-127 | a cached module is returned regardless of the code on disk; an uncached module whose code evaluates is returned and cached; a failed load leaves the cache as it was |
| `Plugins.LoadPlugin` | src/plugins.ts:118-138 | the load succeeds iff the module exists, loads, and has a function `handle_push`; each failure is named by its cause; a success is the entry module's current exports with the display name defaulted, and is what the cache then holds for that name; a module without `handle_push` stays cached as loaded, while a missing or throwing module leaves the name uncached; every other cache entry is kept exactly as it was |
| `Plugins.WithDisplayName` | src/plugins.ts:133-135 | a string `display_name` is kept; any other becomes the module name; no other export changes |
| `Plugins.LoadedPluginIsComplete` | src/plugins.ts:129-137 | every loaded plugin has a function `handle_push` and a string display name, and its template is the module's own value |
| `Plugins.DisplayNameDefaulting` | src/plugins.ts:133-135 | the loaded display name is the module's string `display_name`, or else the module name |
| `Plugins.LoadIgnoresCache` | src/plugins.ts:119-127 | the result of a load does not depend on the module cache |
| `Plugins.EditedPluginIsReloaded` | src/plugins.ts:119-127 | a load after the plugin's entry module is edited returns the edited version, while a plain `require` would still return the cached one |
| `Plugins.ConfigTemplateNotValidated` | src/plugins.ts:100-104 | a module whose `config_template` is not a valid template still loads, and the template is passed on untouched |
| `Types.ResolveReference` | src/types.ts:39-43 | a string reference calls the plugin of that name with no configuration; an object reference passes its `name` and `config` through unchanged |
| `Types.DecodeReference` | src/types.ts:27-43 | a JSON value decodes to a bare-name reference exactly when it is a string, and that reference names the string with no configuration; any other decoded reference comes from an object whose `name` is the resolved plugin name |
| `Types.DecodeEncodeReference` | src/types.ts:27-43 | every reference survives its JSON form unchanged |
| `Types.StringReferenceIsNameOnlyObject` | src/types.ts:39-43 | the string `s` and the object `{name: s}` resolve to the same plugin call, with no configuration |
| `Types.ViewCell` | src/types.ts:45-57 | a text or icon flag present in the cell is shown as written, an absent text as "" and an absent icon flag as false; a plugin call is present exactly when the cell names a plugin, and it is that reference resolved |
| `Types.DefaultsAreImplicit` | src/types.ts:48-56 | writing out the defaults explicitly changes nothing a display sees |
| `Types.EmptyCellView` | src/types.ts:48-56 | an empty cell and one with `""`/`false` written out look the same |
| `Types.DecodeField` | src/types.ts:87-117 | a decoded field comes from an object with a `type` key, and is optional exactly when the `optional` key is present |
| `Types.DecodePrimitives` | src/types.ts:97-99 | a union type list decodes iff every member is a primitive type name, and each member decodes to its name |
| `Types.DecodeEncodeField` | src/types.ts:87-117 | every template field, however deeply nested, survives its JSON form unchanged |
| `Types.DecodeTemplate` | src/types.ts:146-148 | a decoded template has exactly the keys of the JSON object |
| `Types.DecodeEncodeTemplate` | src/types.ts:146-148 | every template survives its JSON form unchanged |
| `Types.CompositeNeverInUnion` | src/types.ts:97-99 | a union naming `array` or `object` is not a template field |
| `Types.OptionalIsAbsentOrTrue` | src/types.ts:87-91 | an `optional` key with any value other than `true` is not a template field |
| `Types.ArrayFieldHasOneItemTemplate` | src/types.ts:101-104 | an `array` field with no `items`, or a list of them, is not a template field |
| `Types.AsPlugin` | src/types.ts:150-167 | an exports object is a `Plugin` iff `handle_push` is a function; the display name is present only when it is a string; the template is the raw exported value |

## Left out

- App-data path computation and creating the data directories (src/data.ts:6-30): environment variables and `mkdirSync`. The `rows` directory is assumed to exist.
- `GridData.ReloadAllRows`: visits each row index once, and `GridData.ReloadRow` each column index once. The source keeps one list entry per name, so directories `7` and `07` make it reload row 7 twice (src/data.ts:84-88), and `1.json`, `01.json` and `1x.json` make it read column 1 three times (src/data.ts:107-111). The loaded rows are the same: each repeat first resets the row to `{}` (src/data.ts:115) or rewrites the same key from the same path `${c}.json`.
- Real file-system access. `statSync`, `readdirSync`, `existsSync` and `readFileSync` are read off the immutable `Tree`. The row-path check in `reload_cell` (src/data.ts:129) always passes on a snapshot, because the row was just listed; the cell-path check (src/data.ts:135) is part of `ReadCell`. Symbolic links are not modelled.
- `JSON.parse` is the `CellParser` parameter. The source stores whatever a cell file parses to, unchecked; the model types that value as `CellData`.
- Console logging.
- The mechanics of `fs.watch`. Its event type and file name are used only in a log message (logging is left out); the model keeps only "reload, then notify the listeners".
- `Promise.all` scheduling. Each listener runs to completion in registration order. That is exact for the shape notifier, which sends before any `await`, but not for effects a general listener performs after an `await`.
- The exception from `readdirSync` on a row path that is a file escapes the watch callback and ends the Node process. The model stops at `Crashed` and says nothing about the process afterwards.
- Numbers beyond 2^53, where `parseInt` loses precision, and the exponent notation `toString` uses from 1e21 on: integers are exact here. `parseInt("-0")` is -0 in JavaScript; it is written and read back as `0`, as the model's 0 is.
- Node module resolution. `require.resolve` maps a name to a file and the cache is keyed by that file; here both are keyed by the module name. Errors thrown while resolving are `ModuleNotFound`.
- `Plugins.LoadPlugin`: only the plugin's entry module is modelled. The source evicts only the entry file from `require.cache`; modules the plugin itself requires stay cached, so an edit to them is not picked up on the next load, and ones it requires for the first time are added to the cache. Neither effect is modelled.
- JSON numbers are integers (`JNumber(int)`). Fractions and exponents are not modelled, and no property here depends on them.
- `ws` connections. A send is an `Outgoing` value carrying the message as JSON. Serialising it with `JSON.stringify` is not modelled.
- `get_loaded_rows` is the `rows` field of `Store`.
- `src/index.ts` (WebSocket server and echo loop), `bin/plugin_npm.js` and `bin/where_appdata.js` (launch scripts), `src/handlers/*` (fixed or echoed replies with no logic), and `src/types.d.ts` (a duplicate of `src/types.ts`).
- `Types.DecodeField` and `Types.DecodeReference` ignore keys the types do not mention. Structural typing allows extra keys, so encoding a decoded value can drop them.

=== FILE: grid_data.dfy ===
/**
 * The grid store: rebuilding the loaded rows from the `rows` directory
 * (`rows/<r>/<c>.json`), deriving the grid shape from the loaded keys, and the
 * registry of listeners that run after every reload.
 */
module GridData {
  import opened Wrappers
  import opened Types
  import opened Numerals
  import opened Sets
  import opened Maps

  /** An entry of the data directory: a file and its text, or a directory of named entries. */
  datatype Node = File(content: string) | Dir(children: map<string, Node>)

  /** The entries of the `rows` directory, by name. */
  type Tree = map<string, Node>

  /** `JSON.parse` of a cell file's text; `None` is a parse (or read) exception. */
  type CellParser = string -> Option<CellData>

  /** The cells of one row, by column index. */
  type Row = map<int, CellData>

  /** The loaded grid: rows by row index. Keys are the integers the source uses as object keys. */
  type LoadedRows = map<int, Row>

  datatype GridShape = GridShape(rows: nat, cols: nat)

  /** The uncaught exception of a reload: the path of a row is a plain file. */
  datatype ReloadError = RowIsNotADirectory(row: int)

  // ---------------------------------------------------------------------------
  // Which entries are rows and cells

  /** The row a directory name stands for: `parseInt(name, 10)`. */
  function RowIndex(name: string): Option<int>
  {
    ParseInt(name)
  }

  /** The column a file name stands for: names ending in `.json`, with the first `.json` removed, then `parseInt`. */
  function ColumnIndex(name: string): Option<int>
  {
    if EndsWith(name, ".json") then ParseInt(RemoveFirst(name, ".json")) else None
  }

  /** The name a row is read back from: `row_idx.toString()`. */
  function RowDirName(row: int): string
  {
    IntToString(row)
  }

  /** The name a cell is read back from: `${column_idx}.json`. */
  function CellFileName(col: int): string
  {
    IntToString(col) + ".json"
  }

  lemma RowIndexOfRowDirName(row: int)
    ensures RowIndex(RowDirName(row)) == Some(row)
  {
    ParseIntOfIntToString(row);
  }

  lemma ColumnIndexOfCellFileName(col: int)
    ensures ColumnIndex(CellFileName(col)) == Some(col)
  {
    var name := CellFileName(col);
    assert name[|name| - 5..] == ".json";
    NoDotInIntToString(col);
    RemoveFirstOfSuffix(IntToString(col), ".json");
    ParseIntOfIntToString(col);
  }

  lemma CellFileNameInjective(a: int, b: int)
    requires CellFileName(a) == CellFileName(b)
    ensures a == b
  {
    ColumnIndexOfCellFileName(a);
    ColumnIndexOfCellFileName(b);
  }

  /** The rows a reload visits: directories whose names parse as integers. */
  function RowIndices(tree: Tree): set<int>
  {
    set n | n in tree && tree[n].Dir? && RowIndex(n).Some? :: RowIndex(n).value
  }

  /** The columns a row reload visits: entries whose names end in `.json` and parse as integers. */
  function ColumnIndices(dir: map<string, Node>): set<int>
  {
    set n | n in dir && ColumnIndex(n).Some? :: ColumnIndex(n).value
  }

  /**
   * Reloading one cell: the entry named exactly `${c}.json` is read and parsed.
   * A missing entry, a directory (reading it throws) or a parse exception leaves the cell out.
   */
  function ReadCell(dir: map<string, Node>, col: int, parse: CellParser): Option<CellData>
  {
    var name := CellFileName(col);
    if name !in dir then None
    else
      match dir[name]
      case File(text) => parse(text)
      case Dir(_) => None
  }

  /** The cells read for the columns `cols` of a row directory. */
  function CellsOf(dir: map<string, Node>, cols: set<int>, parse: CellParser): Row
  {
    map c | c in cols && ReadCell(dir, c, parse).Some? :: ReadCell(dir, c, parse).value
  }

  /** The cells of a row directory: every visited column whose cell could be read. */
  function LoadRow(dir: map<string, Node>, parse: CellParser): Row
  {
    CellsOf(dir, ColumnIndices(dir), parse)
  }

  /** Reloading one more cell adds it when it could be read and changes nothing else. */
  lemma CellsOfOneMore(dir: map<string, Node>, done: set<int>, col: int, parse: CellParser)
    requires col !in done
    ensures CellsOf(dir, done + {col}, parse)
         == if ReadCell(dir, col, parse).Some? then CellsOf(dir, done, parse)[col := ReadCell(dir, col, parse).value]
            else CellsOf(dir, done, parse)
  {
    var before := CellsOf(dir, done, parse);
    var after := CellsOf(dir, done + {col}, parse);
    if ReadCell(dir, col, parse).Some? {
      var expected := before[col := ReadCell(dir, col, parse).value];
      assert after.Keys == expected.Keys;
      assert after == expected;
    } else {
      assert after.Keys == before.Keys;
      assert after == before;
    }
  }

  /** Visited rows whose path `row_idx.toString()` is a plain file: listing it throws. */
  function BadRows(tree: Tree): set<int>
  {
    set i | i in RowIndices(tree) && RowDirName(i) in tree && tree[RowDirName(i)].File?
  }

  /** The rows loaded for the row indices `rows`: those whose path is a directory. */
  function RowsOf(tree: Tree, rows: set<int>, parse: CellParser): LoadedRows
  {
    map i | i in rows && RowDirName(i) in tree && tree[RowDirName(i)].Dir? :: LoadRow(tree[RowDirName(i)].children, parse)
  }

  lemma RowsOfOneMore(tree: Tree, done: set<int>, row: int, parse: CellParser)
    requires row !in done
    ensures RowsOf(tree, done + {row}, parse)
         == if RowDirName(row) in tree && tree[RowDirName(row)].Dir? then
              RowsOf(tree, done, parse)[row := LoadRow(tree[RowDirName(row)].children, parse)]
            else RowsOf(tree, done, parse)
  {
    var before := RowsOf(tree, done, parse);
    var after := RowsOf(tree, done + {row}, parse);
    if RowDirName(row) in tree && tree[RowDirName(row)].Dir? {
      var expected := before[row := LoadRow(tree[RowDirName(row)].children, parse)];
      assert after.Keys == expected.Keys;
      assert after == expected;
    } else {
      assert after.Keys == before.Keys;
      assert after == before;
    }
  }

  /**
   * A reload, stated declaratively. Rows are visited in ascending order, so the
   * smallest bad row is the one whose exception escapes. Otherwise every visited
   * row whose path is a directory is loaded, and a visited row whose path does
   * not exist is skipped.
   */
  function Reload(tree: Tree, parse: CellParser): Result<LoadedRows, ReloadError>
  {
    var bad := BadRows(tree);
    if bad != {} then Failure(RowIsNotADirectory(MinOf(bad)))
    else Success(RowsOf(tree, RowIndices(tree), parse))
  }

  /** `reload_row`: starts from an empty row and reloads its columns in ascending order. */
  method ReloadRow(dir: map<string, Node>, parse: CellParser) returns (row: Row)
    ensures row == LoadRow(dir, parse)
  {
    row := map[];
    var pending := ColumnIndices(dir);
    while pending != {}
      invariant pending <= ColumnIndices(dir)
      invariant row == CellsOf(dir, ColumnIndices(dir) - pending, parse)
      decreases pending
    {
      var c := MinOf(pending);
      var cell := ReadCell(dir, c, parse);
      ghost var done := ColumnIndices(dir) - pending;
      assert ColumnIndices(dir) - (pending - {c}) == done + {c};
      CellsOfOneMore(dir, done, c, parse);
      if cell.Some? {
        row := row[c := cell.value];
      }
      pending := pending - {c};
    }
    assert ColumnIndices(dir) - pending == ColumnIndices(dir);
  }

  /** The rows visited before `i`, all smaller than every pending row, followed by `i`, the smallest pending row. */
  lemma VisitNext(tree: Tree, pending: set<int>, before: seq<int>, i: int)
    requires pending <= RowIndices(tree) && IsMin(pending, i)
    requires forall x :: x in before <==> x in RowIndices(tree) && x !in pending
    requires StrictlyIncreasing(before)
    requires forall v, p :: v in before && p in pending ==> v < p
    ensures StrictlyIncreasing(before + [i])
    ensures forall x :: x in before + [i] <==> x in RowIndices(tree) && x !in pending - {i}
    ensures forall x :: x in before + [i] <==> x in RowIndices(tree) && x <= i
    ensures forall v, p :: v in before + [i] && p in pending - {i} ==> v < p
  {
    AppendLarger(before, i);
    var after := before + [i];
    forall x ensures x in after <==> x in before || x == i {
    }
    forall x ensures x in after <==> x in RowIndices(tree) && x <= i {
      if x in RowIndices(tree) && x <= i && x != i {
        assert x !in pending;
      }
    }
  }

  /** The smallest pending row, when every bad row is pending and its path is a plain file, is the smallest bad row. */
  lemma FirstBadRow(tree: Tree, pending: set<int>, i: int)
    requires pending <= RowIndices(tree) && IsMin(pending, i)
    requires forall b :: b in BadRows(tree) ==> b in pending
    requires RowDirName(i) in tree && tree[RowDirName(i)].File?
    ensures BadRows(tree) != {} && MinOf(BadRows(tree)) == i
  {
    assert i in BadRows(tree);
    assert IsMin(BadRows(tree), i);
  }

  /** Loading the smallest pending row extends the rows loaded so far by that row, when its path is a directory. */
  lemma LoadNext(tree: Tree, pending: set<int>, i: int, parse: CellParser)
    requires pending <= RowIndices(tree) && i in pending
    ensures RowsOf(tree, RowIndices(tree) - (pending - {i}), parse)
         == if RowDirName(i) in tree && tree[RowDirName(i)].Dir? then
              RowsOf(tree, RowIndices(tree) - pending, parse)[i := LoadRow(tree[RowDirName(i)].children, parse)]
            else RowsOf(tree, RowIndices(tree) - pending, parse)
  {
    var done := RowIndices(tree) - pending;
    assert RowIndices(tree) - (pending - {i}) == done + {i};
    RowsOfOneMore(tree, done, i, parse);
  }

  /**
   * `reload_all_rows`: starts from an empty map and reloads each row index once,
   * in ascending order. `visited` lists the rows in the order they were
   * reloaded; when a row's path is a plain file the exception ends the reload there.
   */
  method ReloadAllRows(tree: Tree, parse: CellParser) returns (r: Result<LoadedRows, ReloadError>, visited: seq<int>)
    ensures r == Reload(tree, parse)
    ensures StrictlyIncreasing(visited)
    ensures r.Success? ==> forall i :: i in visited <==> i in RowIndices(tree)
    ensures r.Failure? ==> forall i :: i in visited <==> i in RowIndices(tree) && i <= r.error.row
  {
    var rows: LoadedRows := map[];
    var pending := RowIndices(tree);
    visited := [];
    while pending != {}
      invariant pending <= RowIndices(tree)
      invariant forall i :: i in visited <==> i in RowIndices(tree) && i !in pending
      invariant StrictlyIncreasing(visited)
      invariant forall v, p :: v in visited && p in pending ==> v < p
      invariant forall i :: i in BadRows(tree) ==> i in pending
      invariant rows == RowsOf(tree, RowIndices(tree) - pending, parse)
      decreases pending
    {
      var i := MinOf(pending);
      VisitNext(tree, pending, visited, i);
      visited := visited + [i];
      var name := RowDirName(i);
      if name in tree && tree[name].File? {
        FirstBadRow(tree, pending, i);
        r := Failure(RowIsNotADirectory(i));
        return;
      }
      LoadNext(tree, pending, i, parse);
      if name in tree {
        var row := ReloadRow(tree[name].children, parse);
        rows := rows[i := row];
      }
      pending := pending - {i};
    }
    assert RowIndices(tree) - pending == RowIndices(tree);
    EmptyIfNoMember(BadRows(tree));
    r := Success(rows);
  }

  // ---------------------------------------------------------------------------
  // Grid shape

  /** Every column key of every loaded row, including rows with negative indices. */
  function ColumnKeys(rows: LoadedRows): (cs: set<int>)
    ensures forall r, c :: r in rows && c in rows[r] ==> c in cs
    ensures forall c :: c in cs ==> exists r :: r in rows && c in rows[r]
  {
    set r, c | r in rows && c in rows[r] :: c
  }

  /**
   * `get_shape_of_loaded_rows`: no rows, or no row with a non-negative index,
   * give 0x0; otherwise one more than the largest row index, by one more than
   * the largest column index of any row (0 when no row has a non-negative column).
   */
  function ShapeOf(rows: LoadedRows): (s: GridShape)
    ensures s.rows == 0 <==> forall r :: r in rows ==> r < 0
    ensures s.rows > 0 ==> IsMax(rows.Keys, s.rows - 1)
    ensures s.rows == 0 ==> s.cols == 0
    ensures s.rows > 0 ==> (s.cols == 0 <==> forall c :: c in ColumnKeys(rows) ==> c < 0)
    ensures s.cols > 0 ==> IsMax(ColumnKeys(rows), s.cols - 1)
  {
    if |rows| == 0 then
      assert rows.Keys == {} by { EmptyIfNoMember(rows.Keys); }
      GridShape(0, 0)
    else
      assert rows.Keys != {} by { assert |rows.Keys| != 0; }
      var maxRow := MaxOf(rows.Keys);
      if maxRow < 0 then GridShape(0, 0)
      else
        var maxColumn := MaxOf(ColumnKeys(rows) + {-1});
        GridShape(maxRow + 1, maxColumn + 1)
  }

  /** Every loaded cell at non-negative coordinates lies inside the shape. */
  lemma CellsWithinShape(rows: LoadedRows, r: int, c: int)
    requires r in rows && c in rows[r] && 0 <= r && 0 <= c
    ensures r < ShapeOf(rows).rows && c < ShapeOf(rows).cols
  {
    assert c in ColumnKeys(rows);
  }

  /** The keys of two loaded grids agree, row by row. */
  predicate SameKeys(a: LoadedRows, b: LoadedRows) {
    a.Keys == b.Keys && forall r :: r in a ==> a[r].Keys == b[r].Keys
  }

  /** The shape depends on the row and column keys only, never on cell contents. */
  lemma ShapeDependsOnKeysOnly(a: LoadedRows, b: LoadedRows)
    requires SameKeys(a, b)
    ensures ShapeOf(a) == ShapeOf(b)
  {
    assert ColumnKeys(a) == ColumnKeys(b) by {
      forall c | c in ColumnKeys(a) ensures c in ColumnKeys(b) {
        var r :| r in a && c in a[r];
        assert c in b[r];
      }
      forall c | c in ColumnKeys(b) ensures c in ColumnKeys(a) {
        var r :| r in b && c in b[r];
        assert c in a[r];
      }
    }
    assert |a| == |b| by {
      assert |a.Keys| == |b.Keys|;
    }
  }

  /** Rows that exist but hold no cells give a grid with rows and no columns. */
  lemma EmptyRowsHaveNoColumns(rows: LoadedRows, r: int)
    requires r in rows && 0 <= r
    requires forall k :: k in rows ==> rows[k] == map[]
    ensures ShapeOf(rows).rows > r && ShapeOf(rows).cols == 0
  {
    assert forall c :: c !in ColumnKeys(rows);
  }

  // ---------------------------------------------------------------------------
  // What a reload loads

  /** A row is loaded exactly when the entry named `row.toString()` is a directory, and then from that directory. */
  lemma LoadedRowsAreRowDirectories(tree: Tree, parse: CellParser, row: int)
    requires Reload(tree, parse).Success?
    ensures row in Reload(tree, parse).value <==> RowDirName(row) in tree && tree[RowDirName(row)].Dir?
    ensures row in Reload(tree, parse).value ==>
      Reload(tree, parse).value[row] == LoadRow(tree[RowDirName(row)].children, parse)
  {
    if RowDirName(row) in tree && tree[RowDirName(row)].Dir? {
      RowIndexOfRowDirName(row);
      assert row in RowIndices(tree);
    }
  }

  /** A cell is loaded exactly when the entry named `${col}.json` is a file that parses, and then it is the parsed value. */
  lemma LoadedCellsAreParsedFiles(dir: map<string, Node>, parse: CellParser, col: int)
    ensures col in LoadRow(dir, parse) <==>
      CellFileName(col) in dir && dir[CellFileName(col)].File? && parse(dir[CellFileName(col)].content).Some?
    ensures col in LoadRow(dir, parse) ==>
      LoadRow(dir, parse)[col] == parse(dir[CellFileName(col)].content).value
  {
    if CellFileName(col) in dir {
      ColumnIndexOfCellFileName(col);
      assert col in ColumnIndices(dir);
    }
  }

  /** One column of a row after its cell file is replaced by text that fails to parse. */
  lemma UnparsableCellColumn(dir: map<string, Node>, parse: CellParser, col: int, text: string, c: int)
    requires parse(text).None?
    ensures var after := LoadRow(dir[CellFileName(col) := File(text)], parse);
      var before := LoadRow(dir, parse);
      && (c in after <==> c in before && c != col)
      && (c in after ==> after[c] == before[c])
  {
    var dir' := dir[CellFileName(col) := File(text)];
    LoadedCellsAreParsedFiles(dir', parse, c);
    LoadedCellsAreParsedFiles(dir, parse, c);
    if c != col && CellFileName(c) == CellFileName(col) {
      CellFileNameInjective(c, col);
    }
  }

  /** A cell file that fails to parse removes only its own cell; its siblings load as before. */
  lemma FailedParseDropsOnlyThatCell(dir: map<string, Node>, parse: CellParser, col: int, text: string)
    requires parse(text).None?
    ensures LoadRow(dir[CellFileName(col) := File(text)], parse) == LoadRow(dir, parse) - {col}
  {
    var after := LoadRow(dir[CellFileName(col) := File(text)], parse);
    var expected := LoadRow(dir, parse) - {col};
    forall c ensures (c in after <==> c in expected) && (c in after ==> after[c] == expected[c]) {
      UnparsableCellColumn(dir, parse, col, text, c);
    }
    MapsAgree(after, expected);
  }

  /** Two trees with the same rows, and the same entries at every row path, reload alike. */
  lemma ReloadOfSameRowPaths(a: Tree, b: Tree, parse: CellParser)
    requires RowIndices(a) == RowIndices(b)
    requires forall i :: i in RowIndices(a) ==>
      (RowDirName(i) in a <==> RowDirName(i) in b) && (RowDirName(i) in a ==> a[RowDirName(i)] == b[RowDirName(i)])
    ensures Reload(a, parse) == Reload(b, parse)
  {
    assert BadRows(a) == BadRows(b) by {
      forall i ensures i in BadRows(a) <==> i in BadRows(b) {
      }
    }
    var ra := RowsOf(a, RowIndices(a), parse);
    var rb := RowsOf(b, RowIndices(b), parse);
    assert ra.Keys == rb.Keys by {
      forall i ensures i in ra <==> i in rb {
      }
    }
    assert ra == rb;
  }

  /** A row entry whose name does not parse as an integer plays no part in a reload. */
  lemma NonNumericEntryIgnored(tree: Tree, parse: CellParser, name: string)
    requires name in tree && RowIndex(name).None?
    ensures Reload(tree - {name}, parse) == Reload(tree, parse)
  {
    var smaller := tree - {name};
    forall i ensures RowDirName(i) != name {
      RowIndexOfRowDirName(i);
    }
    assert RowIndices(smaller) == RowIndices(tree) by {
      forall i ensures i in RowIndices(smaller) <==> i in RowIndices(tree) {
        if i in RowIndices(tree) {
          var n :| n in tree && tree[n].Dir? && RowIndex(n).Some? && RowIndex(n).value == i;
          assert n in smaller;
        }
      }
    }
    ReloadOfSameRowPaths(smaller, tree, parse);
  }

  /**
   * A plain file is never a row. It matters only when its name is exactly
   * `row.toString()` for a row that some directory's name parses to: that row's
   * path is then a file and the reload throws.
   */
  lemma PlainFileIgnoredUnlessRowPath(tree: Tree, parse: CellParser, name: string)
    requires name in tree && tree[name].File?
    requires forall i :: i in RowIndices(tree) ==> RowDirName(i) != name
    ensures Reload(tree - {name}, parse) == Reload(tree, parse)
  {
    var smaller := tree - {name};
    assert RowIndices(smaller) == RowIndices(tree) by {
      forall i ensures i in RowIndices(smaller) <==> i in RowIndices(tree) {
        if i in RowIndices(tree) {
          var n :| n in tree && tree[n].Dir? && RowIndex(n).Some? && RowIndex(n).value == i;
          assert n in smaller;
        }
      }
    }
    ReloadOfSameRowPaths(smaller, tree, parse);
  }

  /** A directory named `row.toString()` with a numeric name beside a plain file of that name. */
  lemma RowPathThatIsAFileThrows(tree: Tree, parse: CellParser, dirName: string, row: int)
    requires dirName in tree && tree[dirName].Dir? && RowIndex(dirName) == Some(row)
    requires RowDirName(row) in tree && tree[RowDirName(row)].File?
    ensures Reload(tree, parse).Failure?
    ensures Reload(tree, parse).error.row <= row
  {
    assert row in RowIndices(tree);
    assert row in BadRows(tree);
  }

  /** Only the entry named exactly `${col}.json` is read: another file mapping to the same column is never opened. */
  lemma OtherCellFilesNeverRead(dir: map<string, Node>, parse: CellParser, name: string, node: Node)
    requires name in dir
    requires forall c :: CellFileName(c) != name
    ensures LoadRow(dir[name := node], parse) == LoadRow(dir, parse)
  {
    var dir' := dir[name := node];
    assert ColumnIndices(dir') == ColumnIndices(dir);
    forall c ensures ReadCell(dir', c, parse) == ReadCell(dir, c, parse) {
      assert CellFileName(c) != name;
    }
    var after := LoadRow(dir', parse);
    var before := LoadRow(dir, parse);
    assert after.Keys == before.Keys;
    assert after == before;
  }

  lemma StemOfTrailingJunkName()
    ensures EndsWith("1x.json", ".json")
    ensures RemoveFirst("1x.json", ".json") == "1x"
  {
    var name := "1x.json";
    assert name[2..] == ".json";
    assert name[..5] != ".json" by { assert name[0] != '.'; }
    assert name[1..][..5] != ".json" by { assert name[1] != '.'; }
    assert name[2..][..5] == ".json";
    assert RemoveFirst(name[2..], ".json") == [];
    assert RemoveFirst(name[1..], ".json") == "x";
  }

  lemma ParseIntOfTrailingJunk()
    ensures ParseInt("1x") == Some(1)
  {
    TrimStartKeeps("1x");
    assert DigitPrefix("x") == [];
    assert DigitPrefix("1x") == "1";
    assert DigitsValue("1") == 1 by { assert "1"[..0] == []; }
  }

  /** `1x.json` stands for column 1, so it is read from `1.json`. */
  lemma TrailingJunkColumnExample()
    ensures ColumnIndex("1x.json") == Some(1)
    ensures CellFileName(1) == "1.json"
  {
    StemOfTrailingJunkName();
    ParseIntOfTrailingJunk();
    CellFileNameOfOne();
  }

  lemma CellFileNameOfOne()
    ensures CellFileName(1) == "1.json"
  {
    assert IntToString(1) == "1";
  }

  lemma StemOfRepeatedSuffixName()
    ensures EndsWith("1.json2.json", ".json")
    ensures RemoveFirst("1.json2.json", ".json") == "12.json"
  {
    var name := "1.json2.json";
    assert name[7..] == ".json";
    assert name[..5] != ".json" by { assert name[0] != '.'; }
    assert name[1..][..5] == ".json";
    assert RemoveFirst(name[1..], ".json") == "2.json";
  }

  lemma ParseIntOfTwelveJson()
    ensures ParseInt("12.json") == Some(12)
  {
    var stem := "12.json";
    TrimStartKeeps(stem);
    assert DigitPrefix(stem[2..]) == [] by { assert !IsDigit(stem[2]); }
    assert DigitPrefix(stem[1..]) == "2" by { assert stem[1..][1..] == stem[2..]; }
    assert DigitPrefix(stem) == "12";
    assert DigitsValue("12") == 12 by {
      assert "12"[..1] == "1";
      assert "1"[..0] == [];
    }
  }

  /** Only the first `.json` is removed, so `1.json2.json` stands for column 12. */
  lemma FirstOccurrenceColumnExample()
    ensures ColumnIndex("1.json2.json") == Some(12)
  {
    StemOfRepeatedSuffixName();
    ParseIntOfTwelveJson();
  }

  /** `07` stands for row 7, so a directory `07` is read from the path `7`. */
  lemma LeadingZeroRowExample()
    ensures RowIndex("07") == Some(7)
    ensures RowDirName(7) == "7"
  {
    var name := "07";
    assert AllDigits(name);
    DigitPrefixOfDigits(name);
    TrimStartKeeps(name);
    assert DigitsValue(name) == 7 by {
      assert name[..1] == "0";
      assert "0"[..0] == [];
    }
  }

  // ---------------------------------------------------------------------------
  // Listeners and the watch callback

  /** How one listener's promise settled, and the effects it had before settling. */
  datatype Settled<E> = Settled(effects: seq<E>, rejected: bool)

  /** The store: the loaded rows and the rows-changed listeners, in registration order. */
  datatype Store<L> = Store(rows: LoadedRows, listeners: seq<L>)

  /** `add_rows_changed_listener`: appends; earlier registrations keep their places. */
  function AddRowsChangedListener<L>(store: Store<L>, listener: L): (s: Store<L>)
    ensures s.rows == store.rows
    ensures |s.listeners| == |store.listeners| + 1
    ensures s.listeners[..|store.listeners|] == store.listeners
    ensures s.listeners[|store.listeners|] == listener
  {
    store.(listeners := store.listeners + [listener])
  }

  /**
   * Runs every listener once, in registration order, against the rows just
   * loaded. A rejection is caught where it happens, so each listener's
   * outcome is its own, whatever the others did.
   */
  function NotifyAll<L, E>(listeners: seq<L>, rows: LoadedRows, run: (L, LoadedRows) -> Settled<E>): (reports: seq<Settled<E>>)
    ensures |reports| == |listeners|
    ensures forall k :: 0 <= k < |listeners| ==> reports[k] == run(listeners[k], rows)
  {
    if |listeners| == 0 then []
    else NotifyAll(listeners[..|listeners| - 1], rows, run) + [run(listeners[|listeners| - 1], rows)]
  }

  /** Every effect of a round of notifications, in the order the listeners ran. */
  function Effects<E>(reports: seq<Settled<E>>): seq<E>
  {
    if |reports| == 0 then [] else Effects(reports[..|reports| - 1]) + reports[|reports| - 1].effects
  }

  datatype WatchOutcome<L, E> =
    | Crashed(error: ReloadError)
    | Notified(store: Store<L>, reports: seq<Settled<E>>)

  /**
   * The watch callback: reload everything from the current tree, then notify
   * every listener. The previous rows play no part; an escaping reload
   * exception ends the callback before any listener runs.
   */
  function OnRowsDirectoryChanged<L, E>(store: Store<L>, tree: Tree, parse: CellParser, run: (L, LoadedRows) -> Settled<E>)
    : (o: WatchOutcome<L, E>)
    ensures o.Crashed? <==> Reload(tree, parse).Failure?
    ensures o.Crashed? ==> o.error == Reload(tree, parse).error
    ensures o.Notified? ==> o.store.rows == Reload(tree, parse).value && o.store.listeners == store.listeners
    ensures o.Notified? ==> |o.reports| == |store.listeners|
    ensures o.Notified? ==> forall k :: 0 <= k < |store.listeners| ==> o.reports[k] == run(store.listeners[k], o.store.rows)
  {
    match Reload(tree, parse)
    case Failure(e) => Crashed(e)
    case Success(rows) => Notified(Store(rows, store.listeners), NotifyAll(store.listeners, rows, run))
  }

  /** Module start-up: one reload into an empty store with no listeners. */
  function Startup<L>(tree: Tree, parse: CellParser): (r: Result<Store<L>, ReloadError>)
    ensures r.Success? <==> Reload(tree, parse).Success?
    ensures r.Success? ==> r.value.rows == Reload(tree, parse).value && r.value.listeners == []
  {
    match Reload(tree, parse)
    case Failure(e) => Failure(e)
    case Success(rows) => Success(Store(rows, []))
  }

  /** Start-up and a later watch event on the same tree load the same rows, and fail alike. */
  lemma StartupAgreesWithWatch<L, E>(store: Store<L>, tree: Tree, parse: CellParser, run: (L, LoadedRows) -> Settled<E>)
    ensures Startup<L>(tree, parse).Success? <==> OnRowsDirectoryChanged(store, tree, parse, run).Notified?
    ensures Startup<L>(tree, parse).Success? ==>
      Startup<L>(tree, parse).value.rows == OnRowsDirectoryChanged(store, tree, parse, run).store.rows
    ensures Startup<L>(tree, parse).Failure? ==>
      Startup<L>(tree, parse).error == OnRowsDirectoryChanged(store, tree, parse, run).error
  {
  }

  /** Reloading an unchanged tree changes nothing: the outcome depends on the tree and the listeners only. */
  lemma ReloadIsIdempotent<L, E>(store: Store<L>, tree: Tree, parse: CellParser, run: (L, LoadedRows) -> Settled<E>)
    requires OnRowsDirectoryChanged(store, tree, parse, run).Notified?
    ensures var first := OnRowsDirectoryChanged(store, tree, parse, run);
            OnRowsDirectoryChanged(first.store, tree, parse, run) == first
  {
  }

  /** A listener that rejects stops no one: every later listener still runs and settles as it would have. */
  lemma RejectionIsIsolated<L, E>(listeners: seq<L>, rows: LoadedRows, run: (L, LoadedRows) -> Settled<E>, j: int, k: int)
    requires 0 <= j < k < |listeners|
    requires run(listeners[j], rows).rejected
    ensures NotifyAll(listeners, rows, run)[k] == run(listeners[k], rows)
    ensures NotifyAll(listeners, rows, run)[k] == NotifyAll(listeners[..j] + listeners[j + 1..], rows, run)[k - 1]
  {
    var without := listeners[..j] + listeners[j + 1..];
    assert without[k - 1] == listeners[k];
  }
}

=== FILE: maps.dfy ===
/** Equality of finite maps, stated key by key. */
module Maps {

  /** Two maps that agree on every key, present or absent, are equal. */
  lemma MapsAgree<V>(a: map<int, V>, b: map<int, V>)
    requires forall k :: (k in a <==> k in b) && (k in a ==> a[k] == b[k])
    ensures a == b
  {
    assert forall k :: k in a.Keys <==> k in b.Keys;
    assert a.Keys == b.Keys;
    assert forall k :: k in a ==> a[k] == b[k];
  }
}

=== FILE: notifiers.dfy ===
/**
 * The per-connection notifier: registered when a client connects, it sends a
 * `size` message whenever, after a reload, the grid shape differs from the shape
 * captured at registration. That captured shape is never updated afterwards.
 */
module Notifiers {
  import opened Wrappers
  import opened Types
  import opened GridData

  type ConnectionId = nat

  /** One connection's listener and the shape it compares against (`last_shape`). */
  datatype ShapeNotifier = ShapeNotifier(connection: ConnectionId, lastShape: GridShape)

  /** A message sent on a connection. */
  datatype Outgoing = Outgoing(connection: ConnectionId, message: Json)

  /** `{action: "size", payload: {rows, cols}}`. */
  function SizeMessage(shape: GridShape): (j: Json)
    ensures ReadSizeMessage(j) == Some(shape)
  {
    JObject(map[
      "action" := JString("size"),
      "payload" := JObject(map["rows" := JNumber(shape.rows), "cols" := JNumber(shape.cols)])])
  }

  /** The shape a `size` message carries, as a client reads it. */
  function ReadSizeMessage(j: Json): Option<GridShape>
  {
    if j.JObject? && "action" in j.fields && j.fields["action"] == JString("size") && "payload" in j.fields
       && j.fields["payload"].JObject?
    then
      var p := j.fields["payload"].fields;
      if "rows" in p && "cols" in p && p["rows"].JNumber? && p["cols"].JNumber? && p["rows"].n >= 0 && p["cols"].n >= 0
      then Some(GridShape(p["rows"].n, p["cols"].n))
      else None
    else None
  }

  /** `register_notifiers`: captures the current shape and adds one listener for the connection. */
  function RegisterNotifiers(store: Store<ShapeNotifier>, connection: ConnectionId): (s: Store<ShapeNotifier>)
    ensures s.rows == store.rows
    ensures |s.listeners| == |store.listeners| + 1 && s.listeners[..|store.listeners|] == store.listeners
    ensures s.listeners[|store.listeners|] == ShapeNotifier(connection, ShapeOf(store.rows))
  {
    AddRowsChangedListener(store, ShapeNotifier(connection, ShapeOf(store.rows)))
  }

  /**
   * The `on_rows_changed` closure, run against the rows just reloaded.
   * `sendThrows` says whether `ws.send` throws on a connection; the throw
   * rejects the listener's promise.
   */
  function OnRowsChanged(n: ShapeNotifier, rows: LoadedRows, sendThrows: ConnectionId -> bool): (r: Settled<Outgoing>)
    ensures |r.effects| <= 1
    ensures ShapeOf(rows) == n.lastShape ==> r == Settled([], false)
    ensures ShapeOf(rows) != n.lastShape ==> (r.rejected <==> sendThrows(n.connection))
    ensures r.effects != [] <==> ShapeOf(rows) != n.lastShape && !sendThrows(n.connection)
    ensures r.effects != [] ==> r.effects[0].connection == n.connection
    ensures r.effects != [] ==> ReadSizeMessage(r.effects[0].message) == Some(ShapeOf(rows))
  {
    var shape := ShapeOf(rows);
    if shape == n.lastShape then Settled([], false)
    else if sendThrows(n.connection) then Settled([], true)
    else Settled([Outgoing(n.connection, SizeMessage(shape))], false)
  }

  /** A rows-change notification, as the store's watch callback runs it. */
  function OnWatchEvent(store: Store<ShapeNotifier>, tree: Tree, parse: CellParser, sendThrows: ConnectionId -> bool)
    : WatchOutcome<ShapeNotifier, Outgoing>
  {
    OnRowsDirectoryChanged(store, tree, parse, (n, rows) => OnRowsChanged(n, rows, sendThrows))
  }

  /** What a run of watch events leaves behind: the store, everything sent, and whether a reload threw. */
  datatype Replay = Replay(store: Store<ShapeNotifier>, sent: seq<Outgoing>, crashed: bool)

  /** Watch events for the trees `trees`, one after another, until a reload throws. */
  function ReplayEvents(store: Store<ShapeNotifier>, trees: seq<Tree>, parse: CellParser, sendThrows: ConnectionId -> bool)
    : Replay
    decreases |trees|
  {
    if |trees| == 0 then Replay(store, [], false)
    else
      match OnWatchEvent(store, trees[0], parse, sendThrows)
      case Crashed(_) => Replay(store, [], true)
      case Notified(next, reports) =>
        var rest := ReplayEvents(next, trees[1..], parse, sendThrows);
        Replay(rest.store, Effects(reports) + rest.sent, rest.crashed)
  }

  /** No event ever touches a registered notifier: every captured shape stays as it was at registration. */
  lemma {:induction false} BaselinesNeverChange(store: Store<ShapeNotifier>, trees: seq<Tree>, parse: CellParser, sendThrows: ConnectionId -> bool)
    ensures ReplayEvents(store, trees, parse, sendThrows).store.listeners == store.listeners
    decreases |trees|
  {
    if |trees| > 0 {
      var o := OnWatchEvent(store, trees[0], parse, sendThrows);
      if o.Notified? {
        assert o.store.listeners == store.listeners;
        BaselinesNeverChange(o.store, trees[1..], parse, sendThrows);
      }
    }
  }

  /**
   * The messages one round of notifications sends when the rows have the shape
   * `shape`: a `size` message to each notifier, in registration order, whose
   * captured shape differs and whose send does not throw.
   */
  function SizeMessagesFor(ns: seq<ShapeNotifier>, shape: GridShape, sendThrows: ConnectionId -> bool): seq<Outgoing>
  {
    if |ns| == 0 then []
    else
      var last := ns[|ns| - 1];
      SizeMessagesFor(ns[..|ns| - 1], shape, sendThrows)
        + (if last.lastShape != shape && !sendThrows(last.connection) then [Outgoing(last.connection, SizeMessage(shape))] else [])
  }

  /** `n` copies of `s`, one after another. */
  function Repeat<T>(s: seq<T>, n: nat): seq<T>
  {
    if n == 0 then [] else s + Repeat(s, n - 1)
  }

  /** A round of notifier reports sends exactly the `size` messages of the notifiers that see a changed shape. */
  lemma {:induction false} RoundSends(ns: seq<ShapeNotifier>, rows: LoadedRows, sendThrows: ConnectionId -> bool, reports: seq<Settled<Outgoing>>)
    requires |reports| == |ns|
    requires forall k :: 0 <= k < |ns| ==> reports[k] == OnRowsChanged(ns[k], rows, sendThrows)
    ensures Effects(reports) == SizeMessagesFor(ns, ShapeOf(rows), sendThrows)
    decreases |ns|
  {
    if |ns| > 0 {
      var i := |ns| - 1;
      RoundSends(ns[..i], rows, sendThrows, reports[..i]);
      var last := OnRowsChanged(ns[i], rows, sendThrows);
      assert reports[i] == last;
      if ns[i].lastShape != ShapeOf(rows) && !sendThrows(ns[i].connection) {
        assert last.effects == [Outgoing(ns[i].connection, SizeMessage(ShapeOf(rows)))];
      } else {
        assert last.effects == [];
      }
    }
  }

  /**
   * Over watch events whose reloads all succeed with the same shape, every event
   * sends the same `size` messages again: the notifiers' captured shapes never
   * catch up with the current one.
   */
  lemma {:induction false} ConstantShapeReplaySends(
    store: Store<ShapeNotifier>, trees: seq<Tree>, parse: CellParser, sendThrows: ConnectionId -> bool, shape: GridShape)
    requires forall i :: 0 <= i < |trees| ==> Reload(trees[i], parse).Success? && ShapeOf(Reload(trees[i], parse).value) == shape
    ensures var r := ReplayEvents(store, trees, parse, sendThrows);
      && !r.crashed
      && r.sent == Repeat(SizeMessagesFor(store.listeners, shape, sendThrows), |trees|)
    decreases |trees|
  {
    if |trees| > 0 {
      var o := OnWatchEvent(store, trees[0], parse, sendThrows);
      assert o.Notified? && o.store.listeners == store.listeners && o.store.rows == Reload(trees[0], parse).value;
      RoundSends(store.listeners, o.store.rows, sendThrows, o.reports);
      var round := SizeMessagesFor(store.listeners, shape, sendThrows);
      assert Effects(o.reports) == round;
      var rest := trees[1..];
      assert forall i :: 0 <= i < |rest| ==> rest[i] == trees[i + 1];
      ConstantShapeReplaySends(o.store, rest, parse, sendThrows, shape);
      var tail := ReplayEvents(o.store, rest, parse, sendThrows);
      assert ReplayEvents(store, trees, parse, sendThrows) == Replay(tail.store, Effects(o.reports) + tail.sent, tail.crashed);
      assert Repeat(round, |trees|) == round + Repeat(round, |rest|);
    }
  }

  /** The report of the notifier at position `k` for one watch event. */
  function ReportFor(o: WatchOutcome<ShapeNotifier, Outgoing>, k: int): Settled<Outgoing>
    requires o.Notified? && 0 <= k < |o.reports|
  {
    o.reports[k]
  }

  /**
   * Because the captured shape is never updated, two reloads in a row at the
   * same shape other than the captured one both send `size`.
   */
  lemma RepeatedReloadsResendSize(
    store: Store<ShapeNotifier>, t1: Tree, t2: Tree, parse: CellParser, sendThrows: ConnectionId -> bool, k: int)
    requires 0 <= k < |store.listeners| && !sendThrows(store.listeners[k].connection)
    requires Reload(t1, parse).Success? && Reload(t2, parse).Success?
    requires ShapeOf(Reload(t1, parse).value) == ShapeOf(Reload(t2, parse).value) != store.listeners[k].lastShape
    ensures var first := OnWatchEvent(store, t1, parse, sendThrows);
      && first.Notified?
      && ReportFor(first, k).effects == [Outgoing(store.listeners[k].connection, SizeMessage(ShapeOf(Reload(t1, parse).value)))]
      && var second := OnWatchEvent(first.store, t2, parse, sendThrows);
      && second.Notified?
      && ReportFor(second, k).effects == ReportFor(first, k).effects
  {
  }

  /** A reload back to the captured shape sends nothing, even right after a reload that did send. */
  lemma BackToBaselineSendsNothing(
    store: Store<ShapeNotifier>, t1: Tree, t2: Tree, parse: CellParser, sendThrows: ConnectionId -> bool, k: int)
    requires 0 <= k < |store.listeners| && !sendThrows(store.listeners[k].connection)
    requires Reload(t1, parse).Success? && Reload(t2, parse).Success?
    requires ShapeOf(Reload(t1, parse).value) != store.listeners[k].lastShape
    requires ShapeOf(Reload(t2, parse).value) == store.listeners[k].lastShape
    ensures var first := OnWatchEvent(store, t1, parse, sendThrows);
      && first.Notified? && |ReportFor(first, k).effects| == 1
      && var second := OnWatchEvent(first.store, t2, parse, sendThrows);
      && second.Notified? && ReportFor(second, k) == Settled([], false)
  {
  }

  /** A notifier's report depends on the shape of the rows only. */
  lemma SameShapeSameReport(n: ShapeNotifier, a: LoadedRows, b: LoadedRows, sendThrows: ConnectionId -> bool)
    requires ShapeOf(a) == ShapeOf(b)
    ensures OnRowsChanged(n, a, sendThrows) == OnRowsChanged(n, b, sendThrows)
  {
  }

  /**
   * Edits that keep every row and column key, whatever they do to cell
   * contents, send exactly what the unedited tree would have sent.
   */
  lemma ContentEditsSendTheSame(
    store: Store<ShapeNotifier>, t1: Tree, t2: Tree, parse: CellParser, sendThrows: ConnectionId -> bool)
    requires Reload(t1, parse).Success? && Reload(t2, parse).Success?
    requires SameKeys(Reload(t1, parse).value, Reload(t2, parse).value)
    ensures OnWatchEvent(store, t1, parse, sendThrows).reports == OnWatchEvent(store, t2, parse, sendThrows).reports
  {
    var rows1 := Reload(t1, parse).value;
    var rows2 := Reload(t2, parse).value;
    ShapeDependsOnKeysOnly(rows1, rows2);
    var a := OnWatchEvent(store, t1, parse, sendThrows).reports;
    var b := OnWatchEvent(store, t2, parse, sendThrows).reports;
    assert |a| == |b| == |store.listeners|;
    forall k | 0 <= k < |a| ensures a[k] == b[k] {
      assert a[k] == OnRowsChanged(store.listeners[k], rows1, sendThrows);
      assert b[k] == OnRowsChanged(store.listeners[k], rows2, sendThrows);
      SameShapeSameReport(store.listeners[k], rows1, rows2, sendThrows);
    }
  }

  /** A notifier registered now stays silent on a reload that keeps the shape it captured. */
  lemma NewNotifierSilentUntilShapeChanges(
    store: Store<ShapeNotifier>, connection: ConnectionId, tree: Tree, parse: CellParser, sendThrows: ConnectionId -> bool)
    requires Reload(tree, parse).Success? && ShapeOf(Reload(tree, parse).value) == ShapeOf(store.rows)
    ensures var o := OnWatchEvent(RegisterNotifiers(store, connection), tree, parse, sendThrows);
      o.Notified? && ReportFor(o, |store.listeners|) == Settled([], false)
  {
  }
}

=== FILE: numerals.dfy ===
/**
 * The JavaScript string and number primitives that decide which directory
 * entries become rows and cells: `parseInt(s, 10)`, `Number.prototype.toString`
 * on integers, `String.prototype.endsWith` and `String.prototype.replace` with a
 * string pattern (which replaces the FIRST occurrence only).
 */
module Numerals {
  import opened Wrappers

  /** The StrWhiteSpaceChar production: the characters `parseInt` skips before the sign. */
  predicate IsJsWhiteSpace(ch: char) {
    || ch == '\t' || ch == '\n' || ch == '\U{000B}' || ch == '\U{000C}' || ch == '\r'
    || ch == ' ' || ch == '\U{00A0}' || ch == '\U{1680}'
    || ('\U{2000}' <= ch <= '\U{200A}')
    || ch == '\U{2028}' || ch == '\U{2029}' || ch == '\U{202F}' || ch == '\U{205F}'
    || ch == '\U{3000}' || ch == '\U{FEFF}'
  }

  predicate IsDigit(ch: char) {
    '0' <= ch <= '9'
  }

  predicate AllDigits(s: string) {
    forall i :: 0 <= i < |s| ==> IsDigit(s[i])
  }

  function DigitValue(ch: char): (d: nat)
    requires IsDigit(ch)
    ensures d < 10
  {
    ch as int - '0' as int
  }

  function DigitChar(d: nat): (ch: char)
    requires d < 10
    ensures IsDigit(ch) && DigitValue(ch) == d
  {
    ('0' as int + d) as char
  }

  /** Leading white space removed, as the first step of `parseInt` does. */
  function TrimStart(s: string): (t: string)
    ensures |t| <= |s| && t == s[|s| - |t|..]
    ensures forall i :: 0 <= i < |s| - |t| ==> IsJsWhiteSpace(s[i])
    ensures |t| == 0 || !IsJsWhiteSpace(t[0])
  {
    if |s| > 0 && IsJsWhiteSpace(s[0]) then TrimStart(s[1..]) else s
  }

  /** The longest prefix of decimal digits. */
  function DigitPrefix(s: string): (d: string)
    ensures |d| <= |s| && d == s[..|d|] && AllDigits(d)
    ensures |d| == |s| || !IsDigit(s[|d|])
  {
    if |s| > 0 && IsDigit(s[0]) then
      var rest := DigitPrefix(s[1..]);
      assert s[1..][..|rest|] == s[1..|rest| + 1];
      [s[0]] + rest
    else []
  }

  /** The number a string of decimal digits denotes, most significant digit first. */
  function DigitsValue(d: string): nat
    requires AllDigits(d)
  {
    if |d| == 0 then 0 else 10 * DigitsValue(d[..|d| - 1]) + DigitValue(d[|d| - 1])
  }

  /** The maximal run of leading digits, read as a decimal number; `None` when there is none. */
  function ParseDigits(u: string): (r: Option<nat>)
  {
    var digits := DigitPrefix(u);
    if |digits| == 0 then None else Some(DigitsValue(digits))
  }

  /** An optional sign, then digits. */
  function ParseSigned(t: string): (r: Option<int>)
  {
    if |t| > 0 && t[0] == '-' then
      match ParseDigits(t[1..])
      case None => None
      case Some(n) => Some(-(n as int))
    else if |t| > 0 && t[0] == '+' then
      match ParseDigits(t[1..])
      case None => None
      case Some(n) => Some(n)
    else
      match ParseDigits(t)
      case None => None
      case Some(n) => Some(n)
  }

  /**
   * `parseInt(s, 10)`: optional leading white space, an optional sign, then the
   * maximal run of digits; anything after the digits is ignored. `None` is NaN.
   */
  function ParseInt(s: string): (r: Option<int>)
  {
    ParseSigned(TrimStart(s))
  }

  function NatToString(n: nat): (s: string)
    ensures |s| > 0 && AllDigits(s)
  {
    if n < 10 then [DigitChar(n)] else NatToString(n / 10) + [DigitChar(n % 10)]
  }

  /** `Number.prototype.toString()` on an integer: decimal, no leading zeros, `-` for negatives. */
  function IntToString(i: int): string
  {
    if i < 0 then "-" + NatToString(-i) else NatToString(i)
  }

  predicate EndsWith(s: string, suffix: string) {
    |suffix| <= |s| && s[|s| - |suffix|..] == suffix
  }

  /** `s.replace(pattern, "")`: only the first occurrence of `pattern` is removed. */
  function RemoveFirst(s: string, pattern: string): string
  {
    if |s| < |pattern| then s
    else if s[..|pattern|] == pattern then s[|pattern|..]
    else [s[0]] + RemoveFirst(s[1..], pattern)
  }

  lemma {:induction false} DigitsValueOfNatToString(n: nat)
    ensures DigitsValue(NatToString(n)) == n
  {
    var s := NatToString(n);
    if n >= 10 {
      DigitsValueOfNatToString(n / 10);
      assert s[..|s| - 1] == NatToString(n / 10);
    }
  }

  lemma {:induction false} DigitPrefixOfDigits(s: string)
    requires AllDigits(s)
    ensures DigitPrefix(s) == s
  {
    if |s| > 0 {
      DigitPrefixOfDigits(s[1..]);
    }
  }

  lemma DigitOrMinusIsNotWhiteSpace(ch: char)
    requires IsDigit(ch) || ch == '-'
    ensures !IsJsWhiteSpace(ch)
  {
  }

  lemma TrimStartKeeps(s: string)
    requires |s| > 0 && (IsDigit(s[0]) || s[0] == '-')
    ensures TrimStart(s) == s
  {
    DigitOrMinusIsNotWhiteSpace(s[0]);
  }

  lemma ParseIntOfDigits(d: string)
    requires |d| > 0 && AllDigits(d)
    ensures ParseInt(d) == Some(DigitsValue(d))
  {
    DigitPrefixOfDigits(d);
    assert IsDigit(d[0]);
    TrimStartKeeps(d);
  }

  lemma ParseIntOfNegatedDigits(d: string)
    requires |d| > 0 && AllDigits(d)
    ensures ParseInt("-" + d) == Some(0 - DigitsValue(d))
  {
    DigitPrefixOfDigits(d);
    var m := "-" + d;
    TrimStartKeeps(m);
    assert m[1..] == d;
  }

  /** `parseInt` reads back every integer `toString` writes. */
  lemma ParseIntOfIntToString(i: int)
    ensures ParseInt(IntToString(i)) == Some(i)
  {
    var n: nat := if i < 0 then -i else i;
    DigitsValueOfNatToString(n);
    if i < 0 {
      ParseIntOfNegatedDigits(NatToString(n));
    } else {
      ParseIntOfDigits(NatToString(n));
    }
  }

  lemma NoDotInIntToString(i: int)
    ensures '.' !in IntToString(i)
  {
    var digits := NatToString(if i < 0 then -i else i);
    assert forall k :: 0 <= k < |digits| ==> digits[k] != '.';
  }

  /** Removing the first occurrence of a suffix that starts with a character the prefix lacks leaves the prefix. */
  lemma {:induction false} RemoveFirstOfSuffix(x: string, pattern: string)
    requires |pattern| > 0 && pattern[0] !in x
    ensures RemoveFirst(x + pattern, pattern) == x
  {
    var s := x + pattern;
    if |x| == 0 {
      assert s[..|pattern|] == pattern;
      assert s[|pattern|..] == x;
    } else {
      assert s[..|pattern|] != pattern by {
        assert s[0] == x[0];
      }
      assert s[1..] == x[1..] + pattern;
      RemoveFirstOfSuffix(x[1..], pattern);
      assert [x[0]] + x[1..] == x;
    }
  }
}

=== FILE: plugins.dfy ===
/**
 * Plugin loading: evict the module from the module cache, load it afresh from
 * the plugin directory, check that it exports a `handle_push` function, and
 * default its `display_name` to the module name.
 */
module Plugins {
  import opened Wrappers
  import opened Types

  /** What loading a module's code does: produce its exports, or throw. */
  datatype ModuleSource = Evaluates(exports: Exports) | ThrowsOnLoad

  /** The plugin modules currently on disk, by module name. */
  type ModuleDirectory = map<string, ModuleSource>

  /** The module cache: exports objects of modules already loaded, by module name. */
  type ModuleCache = map<string, Exports>

  datatype LoadError =
    | ModuleNotFound(name: string)
    | ModuleThrew(name: string)
    | MissingHandlePush(name: string)

  /** The result of a load and the module cache it leaves behind. */
  datatype Loaded = Loaded(result: Result<Exports, LoadError>, cache: ModuleCache)

  /**
   * `require(name)`: a cached module is returned as it is, however the code on
   * disk has changed since; otherwise the module is loaded and cached. A module
   * whose code throws is not cached.
   */
  function Require(cache: ModuleCache, disk: ModuleDirectory, name: string): (l: Loaded)
    ensures name in cache ==> l == Loaded(Success(cache[name]), cache)
    ensures name !in cache && name in disk && disk[name].Evaluates? ==>
      l == Loaded(Success(disk[name].exports), cache[name := disk[name].exports])
    ensures l.result.Failure? ==> l.cache == cache && name !in cache
  {
    if name in cache then Loaded(Success(cache[name]), cache)
    else if name !in disk then Loaded(Failure(ModuleNotFound(name)), cache)
    else
      match disk[name]
      case ThrowsOnLoad => Loaded(Failure(ModuleThrew(name)), cache)
      case Evaluates(e) => Loaded(Success(e), cache[name := e])
  }

  /** `typeof plugin.handle_push === "function"`. */
  predicate HasHandlePush(e: Exports) {
    Get(e, "handle_push").Function?
  }

  /** The exports object after the `display_name` default is written into it. */
  function WithDisplayName(e: Exports, name: string): (d: Exports)
    ensures IsStringValue(Get(e, "display_name")) ==> d == e
    ensures !IsStringValue(Get(e, "display_name")) ==> Get(d, "display_name") == Data(JString(name))
    ensures forall key :: key != "display_name" ==> Get(d, key) == Get(e, key)
  {
    if IsStringValue(Get(e, "display_name")) then e else e["display_name" := Data(JString(name))]
  }

  /**
   * `load_plugin(name)`. The name is evicted from the cache first, so the
   * module is always loaded from its current code. The `display_name` default
   * is written into the exports object itself, so the cache keeps it too; a
   * module without `handle_push` stays cached as it was loaded.
   */
  function LoadPlugin(cache: ModuleCache, disk: ModuleDirectory, name: string): (l: Loaded)
    ensures l.result.Success? <==> name in disk && disk[name].Evaluates? && HasHandlePush(disk[name].exports)
    ensures l.result == Failure(ModuleNotFound(name)) <==> name !in disk
    ensures l.result == Failure(ModuleThrew(name)) <==> name in disk && disk[name].ThrowsOnLoad?
    ensures l.result == Failure(MissingHandlePush(name)) <==>
      name in disk && disk[name].Evaluates? && !HasHandlePush(disk[name].exports)
    ensures l.result.Success? ==> l.result.value == WithDisplayName(disk[name].exports, name)
    ensures l.result.Success? ==> l.cache == cache[name := l.result.value]
    ensures l.result == Failure(MissingHandlePush(name)) ==> l.cache == cache[name := disk[name].exports]
    ensures l.result.Failure? && !l.result.error.MissingHandlePush? ==> l.cache == cache - {name}
    ensures forall other :: other != name ==>
      (other in l.cache <==> other in cache) && (other in cache ==> l.cache[other] == cache[other])
  {
    var loaded := Require(cache - {name}, disk, name);
    match loaded.result
    case Failure(e) => loaded
    case Success(plugin) =>
      if !HasHandlePush(plugin) then Loaded(Failure(MissingHandlePush(name)), loaded.cache)
      else
        var normalised := WithDisplayName(plugin, name);
        Loaded(Success(normalised), loaded.cache[name := normalised])
  }

  /** Every plugin handed out has a push handler and a string display name, and fits the `Plugin` interface. */
  lemma LoadedPluginIsComplete(cache: ModuleCache, disk: ModuleDirectory, name: string)
    requires LoadPlugin(cache, disk, name).result.Success?
    ensures var e := LoadPlugin(cache, disk, name).result.value;
      && AsPlugin(e).Some?
      && AsPlugin(e).value.displayName.Some?
      && AsPlugin(e).value.handlePush == Get(disk[name].exports, "handle_push").id
      && AsPlugin(e).value.configTemplate == Get(disk[name].exports, "config_template")
  {
  }

  /** A string `display_name` is kept as it is, even an empty one; anything else becomes the module name. */
  lemma DisplayNameDefaulting(cache: ModuleCache, disk: ModuleDirectory, name: string)
    requires LoadPlugin(cache, disk, name).result.Success?
    ensures var e := LoadPlugin(cache, disk, name).result.value;
      var declared := Get(disk[name].exports, "display_name");
      AsPlugin(e).value.displayName == Some(if IsStringValue(declared) then declared.json.s else name)
  {
  }

  /** The cache never decides the outcome: two loads against different caches give the same result. */
  lemma LoadIgnoresCache(c1: ModuleCache, c2: ModuleCache, disk: ModuleDirectory, name: string)
    ensures LoadPlugin(c1, disk, name).result == LoadPlugin(c2, disk, name).result
  {
  }

  /**
   * Editing a plugin takes effect on the next load, even though the previous
   * version is still in the cache; a plain `require` would return the old one.
   */
  lemma EditedPluginIsReloaded(cache: ModuleCache, disk: ModuleDirectory, name: string, edited: Exports)
    requires LoadPlugin(cache, disk, name).result.Success?
    requires HasHandlePush(edited)
    ensures var first := LoadPlugin(cache, disk, name);
      && LoadPlugin(first.cache, disk[name := Evaluates(edited)], name).result == Success(WithDisplayName(edited, name))
      && Require(first.cache, disk[name := Evaluates(edited)], name).result == first.result
  {
  }

  /** The configuration template is handed on untouched: a value that is no template at all still loads. */
  lemma ConfigTemplateNotValidated(cache: ModuleCache, name: string, handler: nat, template: Json)
    requires DecodeTemplate(template).None?
    ensures var exports := map["handle_push" := Function(handler), "config_template" := Data(template)];
      var l := LoadPlugin(cache, map[name := Evaluates(exports)], name);
      && l.result.Success?
      && AsPlugin(l.result.value).value.configTemplate == Data(template)
  {
    var exports: Exports := map["handle_push" := Function(handler), "config_template" := Data(template)];
    assert Get(exports, "config_template") == Data(template);
  }
}

=== FILE: sets.dfy ===
/** Extremes of finite sets of integers, as `Math.max`/`Math.min` and an ascending sort see them. */
module Sets {

  predicate IsMax(s: set<int>, m: int) {
    m in s && forall x :: x in s ==> x <= m
  }

  predicate IsMin(s: set<int>, m: int) {
    m in s && forall x :: x in s ==> m <= x
  }

  lemma EmptyIfNoMember(s: set<int>)
    requires forall y :: y !in s
    ensures s == {}
  {
    assert forall y :: y in s <==> y in {};
  }

  /** Some element of a non-empty set. */
  lemma Pick(s: set<int>) returns (y: int)
    requires s != {}
    ensures y in s
  {
    if forall y :: y !in s {
      EmptyIfNoMember(s);
      assert false;
    }
    y :| y in s;
  }

  lemma {:induction false} MaxExists(s: set<int>)
    requires s != {}
    ensures exists m :: IsMax(s, m)
  {
    var y := Pick(s);
    if s - {y} == {} {
      forall x | x in s ensures x <= y { assert x !in s - {y}; }
      assert IsMax(s, y);
    } else {
      MaxExists(s - {y});
      var m :| IsMax(s - {y}, m);
      if y > m {
        forall x | x in s ensures x <= y { if x != y { assert x in s - {y}; } }
        assert IsMax(s, y);
      } else {
        forall x | x in s ensures x <= m { if x != y { assert x in s - {y}; } }
        assert IsMax(s, m);
      }
    }
  }

  lemma {:induction false} MinExists(s: set<int>)
    requires s != {}
    ensures exists m :: IsMin(s, m)
  {
    var y := Pick(s);
    if s - {y} == {} {
      forall x | x in s ensures y <= x { assert x !in s - {y}; }
      assert IsMin(s, y);
    } else {
      MinExists(s - {y});
      var m :| IsMin(s - {y}, m);
      if y < m {
        forall x | x in s ensures y <= x { if x != y { assert x in s - {y}; } }
        assert IsMin(s, y);
      } else {
        forall x | x in s ensures m <= x { if x != y { assert x in s - {y}; } }
        assert IsMin(s, m);
      }
    }
  }

  /** The largest element, as `Math.max(...s)` returns it for a non-empty `s`. */
  function MaxOf(s: set<int>): (m: int)
    requires s != {}
    ensures IsMax(s, m)
  {
    MaxExists(s);
    var m :| IsMax(s, m); m
  }

  /** The smallest element: the first one an ascending sort puts in front. */
  function MinOf(s: set<int>): (m: int)
    requires s != {}
    ensures IsMin(s, m)
  {
    MinExists(s);
    var m :| IsMin(s, m); m
  }

  /** The order an ascending numeric sort of distinct values produces. */
  predicate StrictlyIncreasing(s: seq<int>) {
    forall a, b :: 0 <= a < b < |s| ==> s[a] < s[b]
  }

  lemma AppendLarger(s: seq<int>, x: int)
    requires StrictlyIncreasing(s)
    requires forall v :: v in s ==> v < x
    ensures StrictlyIncreasing(s + [x])
  {
    var t := s + [x];
    forall a, b | 0 <= a < b < |t| ensures t[a] < t[b] {
      if b == |s| {
        assert t[a] == s[a];
        assert s[a] in s;
      } else {
        assert t[a] == s[a] && t[b] == s[b];
      }
    }
  }
}

=== FILE: types.dfy ===
/**
 * The shared data model of the tray server: JSON values, the data held in one
 * grid cell, references from a cell to a plugin, the configuration template a
 * plugin may declare for editors, and the shape of a loaded plugin module.
 */
module Types {
  import opened Wrappers

  /** A JSON value. Numbers are integers here; floating point is not modelled. */
  datatype Json =
    | JNull
    | JBool(b: bool)
    | JNumber(n: int)
    | JString(s: string)
    | JArray(items: seq<Json>)
    | JObject(fields: map<string, Json>)

  // ---------------------------------------------------------------------------
  // Plugin references

  /** The object form of a plugin reference: a plugin name and optional configuration. */
  datatype PluginConfigReference = PluginConfigReference(name: string, config: Option<map<string, Json>>)

  /** A cell names its plugin either by a bare string or by a `{name, config}` object. */
  datatype PluginReference =
    | ByName(pluginName: string)
    | ByObject(reference: PluginConfigReference)

  /** What a reference asks for once the shorthand is expanded: a name and maybe a configuration. */
  datatype PluginCall = PluginCall(name: string, config: Option<map<string, Json>>)

  /** The shorthand string names a plugin with no configuration; the object form passes its name and configuration through. */
  function ResolveReference(r: PluginReference): (call: PluginCall)
    ensures r.ByName? ==> call == PluginCall(r.pluginName, None)
    ensures r.ByObject? ==> call == PluginCall(r.reference.name, r.reference.config)
  {
    match r
    case ByName(n) => PluginCall(n, None)
    case ByObject(PluginConfigReference(n, c)) => PluginCall(n, c)
  }

  /** The JSON form of a reference, as a cell file holds it. */
  function EncodeReference(r: PluginReference): Json
  {
    match r
    case ByName(n) => JString(n)
    case ByObject(PluginConfigReference(n, None)) => JObject(map["name" := JString(n)])
    case ByObject(PluginConfigReference(n, Some(c))) => JObject(map["name" := JString(n), "config" := JObject(c)])
  }

  /**
   * The JSON values that have the `PluginReference` type: a string, or an object
   * whose `name` is a string and whose `config`, when present, is an object.
   * Other keys of the object are ignored, as structural typing allows.
   */
  function DecodeReference(j: Json): (r: Option<PluginReference>)
    ensures r.Some? && r.value.ByName? <==> j.JString?
    ensures r.Some? && j.JString? ==> ResolveReference(r.value) == PluginCall(j.s, None)
    ensures r.Some? && !j.JString? ==>
      j.JObject? && "name" in j.fields && j.fields["name"] == JString(ResolveReference(r.value).name)
  {
    match j
    case JString(n) => Some(ByName(n))
    case JObject(m) =>
      if "name" !in m || !m["name"].JString? then None
      else if "config" !in m then Some(ByObject(PluginConfigReference(m["name"].s, None)))
      else if m["config"].JObject? then Some(ByObject(PluginConfigReference(m["name"].s, Some(m["config"].fields))))
      else None
    case _ => None
  }

  lemma DecodeEncodeReference(r: PluginReference)
    ensures DecodeReference(EncodeReference(r)) == Some(r)
  {
  }

  /** A bare string reference means the same plugin call as `{name: s}` without configuration. */
  lemma StringReferenceIsNameOnlyObject(n: string)
    ensures DecodeReference(JString(n)).Some?
    ensures DecodeReference(JObject(map["name" := JString(n)])).Some?
    ensures ResolveReference(DecodeReference(JString(n)).value)
         == ResolveReference(DecodeReference(JObject(map["name" := JString(n)])).value)
         == PluginCall(n, None)
  {
  }

  // ---------------------------------------------------------------------------
  // Cell data

  /** One grid cell. Every field may be absent from the cell's file. */
  datatype CellData = CellData(text: Option<string>, textIsIcon: Option<bool>, plugin: Option<PluginReference>)

  /** A cell as a display shows it, with every documented default filled in. */
  datatype CellView = CellView(text: string, isIcon: bool, plugin: Option<PluginCall>)

  function ViewCell(c: CellData): (v: CellView)
    ensures c.text.None? ==> v.text == ""
    ensures c.text.Some? ==> v.text == c.text.value
    ensures c.textIsIcon.None? ==> !v.isIcon
    ensures c.textIsIcon.Some? ==> v.isIcon == c.textIsIcon.value
    ensures v.plugin.Some? <==> c.plugin.Some?
    ensures c.plugin.Some? ==> v.plugin == Some(ResolveReference(c.plugin.value))
  {
    CellView(
      c.text.GetOr(""),
      c.textIsIcon.GetOr(false),
      match c.plugin
      case None => None
      case Some(r) => Some(ResolveReference(r)))
  }

  /** The same cell with every default written out explicitly. */
  function WithDefaults(c: CellData): (d: CellData)
    ensures d.text.Some? && d.textIsIcon.Some?
    ensures d.plugin == c.plugin
  {
    CellData(Some(c.text.GetOr("")), Some(c.textIsIcon.GetOr(false)), c.plugin)
  }

  /** Leaving a field out and writing its default are indistinguishable to a display. */
  lemma DefaultsAreImplicit(c: CellData)
    ensures ViewCell(WithDefaults(c)) == ViewCell(c)
    ensures WithDefaults(WithDefaults(c)) == WithDefaults(c)
  {
  }

  /** An empty cell shows no text, no icon and no plugin, just as one with `""` and `false` written out. */
  lemma EmptyCellView()
    ensures ViewCell(CellData(None, None, None)) == CellView("", false, None)
    ensures ViewCell(CellData(Some(""), Some(false), None)) == ViewCell(CellData(None, None, None))
  {
  }

  // ---------------------------------------------------------------------------
  // Plugin configuration templates

  datatype Primitive = StringType | NumberType | BooleanType

  /**
   * The type of one template field. A union lists primitive types only: an
   * array or object type can never be part of a union. An array field has exactly
   * one item template; an object field has one template per property.
   */
  datatype FieldKind =
    | PrimitiveKind(primitive: Primitive)
    | UnionKind(members: seq<Primitive>)
    | ArrayKind(items: Field)
    | ObjectKind(properties: map<string, Field>)

  /** A template field. `optional` false stands for the key being absent: the flag may only ever be `true`. */
  datatype Field = Field(kind: FieldKind, description: Option<string>, optional: bool)

  function PrimitiveName(p: Primitive): string
  {
    match p
    case StringType => "string"
    case NumberType => "number"
    case BooleanType => "boolean"
  }

  function DecodePrimitive(j: Json): (p: Option<Primitive>)
    ensures p.Some? ==> j == JString(PrimitiveName(p.value))
  {
    if j == JString("string") then Some(StringType)
    else if j == JString("number") then Some(NumberType)
    else if j == JString("boolean") then Some(BooleanType)
    else None
  }

  function DecodePrimitives(js: seq<Json>): (ps: Option<seq<Primitive>>)
    ensures ps.Some? <==> forall i :: 0 <= i < |js| ==> DecodePrimitive(js[i]).Some?
    ensures ps.Some? ==> |ps.value| == |js| && forall i :: 0 <= i < |js| ==> js[i] == JString(PrimitiveName(ps.value[i]))
  {
    if |js| == 0 then Some([])
    else
      match (DecodePrimitive(js[0]), DecodePrimitives(js[1..]))
      case (Some(p), Some(rest)) => Some([p] + rest)
      case _ => None
  }

  function EncodePrimitives(ps: seq<Primitive>): (js: seq<Json>)
    ensures |js| == |ps|
  {
    if |ps| == 0 then [] else [JString(PrimitiveName(ps[0]))] + EncodePrimitives(ps[1..])
  }

  function EncodeField(f: Field): Json
  {
    var base := map["type" := EncodeKindType(f.kind)];
    var withDescription := if f.description.Some? then base["description" := JString(f.description.value)] else base;
    var withOptional := if f.optional then withDescription["optional" := JBool(true)] else withDescription;
    match f.kind
    case ArrayKind(items) => JObject(withOptional["items" := EncodeField(items)])
    case ObjectKind(props) => JObject(withOptional["properties" := JObject(map k | k in props :: EncodeField(props[k]))])
    case _ => JObject(withOptional)
  }

  function EncodeKindType(k: FieldKind): Json
  {
    match k
    case PrimitiveKind(p) => JString(PrimitiveName(p))
    case UnionKind(ps) => JArray(EncodePrimitives(ps))
    case ArrayKind(_) => JString("array")
    case ObjectKind(_) => JString("object")
  }

  /**
   * The JSON objects that have the `PluginConfigTemplate_Field` type. Keys the
   * type does not mention are ignored.
   */
  function DecodeField(j: Json): (f: Option<Field>)
    ensures f.Some? ==> j.JObject? && "type" in j.fields
    ensures f.Some? ==> ("optional" in j.fields <==> f.value.optional)
  {
    match j
    case JObject(m) =>
      if "type" !in m then None
      else if "description" in m && !m["description"].JString? then None
      else if "optional" in m && m["optional"] != JBool(true) then None
      else
        var description := if "description" in m then Some(m["description"].s) else None;
        var optional := "optional" in m;
        var kind: Option<FieldKind> :=
          match m["type"]
          case JString("array") =>
            if "items" !in m then None
            else (match DecodeField(m["items"]) case Some(items) => Some(ArrayKind(items)) case None => None)
          case JString("object") =>
            if "properties" !in m || !m["properties"].JObject? then None
            else
              var props := m["properties"].fields;
              if forall k :: k in props ==> DecodeField(props[k]).Some? then
                Some(ObjectKind(map k | k in props :: DecodeField(props[k]).value))
              else None
          case JArray(items) =>
            (match DecodePrimitives(items) case Some(ps) => Some(UnionKind(ps)) case None => None)
          case other =>
            (match DecodePrimitive(other) case Some(p) => Some(PrimitiveKind(p)) case None => None);
        (match kind
         case Some(k) => Some(Field(k, description, optional))
         case None => None)
    case _ => None
  }

  /** A whole template: one field per configuration key. */
  type ConfigTemplate = map<string, Field>

  function EncodeTemplate(t: ConfigTemplate): Json
  {
    JObject(map k | k in t :: EncodeField(t[k]))
  }

  function DecodeTemplate(j: Json): (t: Option<ConfigTemplate>)
    ensures t.Some? ==> j.JObject? && t.value.Keys == j.fields.Keys
  {
    match j
    case JObject(m) =>
      if forall k :: k in m ==> DecodeField(m[k]).Some? then Some(map k | k in m :: DecodeField(m[k]).value)
      else None
    case _ => None
  }

  lemma {:induction false} DecodeEncodePrimitives(ps: seq<Primitive>)
    ensures DecodePrimitives(EncodePrimitives(ps)) == Some(ps)
  {
    if |ps| > 0 {
      var js := EncodePrimitives(ps);
      DecodeEncodePrimitives(ps[1..]);
      assert js[1..] == EncodePrimitives(ps[1..]);
      match ps[0] {
        case StringType =>
        case NumberType =>
        case BooleanType =>
      }
      assert [ps[0]] + ps[1..] == ps;
    }
  }

  /** The keys `EncodeField` writes, and what it writes under them. */
  lemma EncodedFieldMembers(f: Field)
    ensures EncodeField(f).JObject?
    ensures var m := EncodeField(f).fields;
      && "type" in m && m["type"] == EncodeKindType(f.kind)
      && ("description" in m <==> f.description.Some?)
      && (f.description.Some? ==> m["description"] == JString(f.description.value))
      && ("optional" in m <==> f.optional)
      && (f.optional ==> m["optional"] == JBool(true))
      && (f.kind.ArrayKind? ==> "items" in m && m["items"] == EncodeField(f.kind.items))
      && (f.kind.ObjectKind? ==>
            "properties" in m && m["properties"] == JObject(map k | k in f.kind.properties :: EncodeField(f.kind.properties[k])))
  {
  }

  /** An array field decodes back from its JSON form once its item template does. */
  lemma DecodeEncodedArray(f: Field)
    requires f.kind.ArrayKind? && DecodeField(EncodeField(f.kind.items)) == Some(f.kind.items)
    ensures DecodeField(EncodeField(f)) == Some(f)
  {
    EncodedFieldMembers(f);
  }

  /** How an object-typed field is decoded when every one of its properties decodes. */
  lemma DecodeObjectField(m: map<string, Json>, props: map<string, Json>)
    requires "type" in m && m["type"] == JString("object")
    requires "description" in m ==> m["description"].JString?
    requires "optional" in m ==> m["optional"] == JBool(true)
    requires "properties" in m && m["properties"] == JObject(props)
    requires forall k :: k in props ==> DecodeField(props[k]).Some?
    ensures DecodeField(JObject(m)).Some?
    ensures DecodeField(JObject(m)).value.kind == ObjectKind(map k | k in props :: DecodeField(props[k]).value)
    ensures DecodeField(JObject(m)).value.description == if "description" in m then Some(m["description"].s) else None
    ensures DecodeField(JObject(m)).value.optional == ("optional" in m)
  {
    assert m["type"] != JString("array");
  }

  /** Decoding each encoded property gives back the properties. */
  lemma DecodedProperties(props: map<string, Field>, encoded: map<string, Json>)
    requires encoded.Keys == props.Keys
    requires forall k :: k in encoded ==> DecodeField(encoded[k]) == Some(props[k])
    ensures (map k | k in encoded :: DecodeField(encoded[k]).value) == props
  {
    var decoded := map k | k in encoded :: DecodeField(encoded[k]).value;
    assert decoded.Keys == props.Keys;
  }

  /** An object field decodes back from its JSON form once each of its properties does. */
  lemma DecodeEncodedObject(f: Field)
    requires f.kind.ObjectKind?
    requires forall k :: k in f.kind.properties ==> DecodeField(EncodeField(f.kind.properties[k])) == Some(f.kind.properties[k])
    ensures DecodeField(EncodeField(f)) == Some(f)
  {
    EncodedFieldMembers(f);
    var props := f.kind.properties;
    var encoded := map k | k in props :: EncodeField(props[k]);
    assert forall k :: k in encoded ==> DecodeField(encoded[k]) == Some(props[k]);
    DecodeObjectField(EncodeField(f).fields, encoded);
    DecodedProperties(props, encoded);
    var g := DecodeField(EncodeField(f)).value;
    assert g.kind == f.kind;
    assert g.description == f.description;
    assert g.optional == f.optional;
  }

  /** Every template field, however deeply nested, survives its JSON form unchanged. */
  lemma {:induction false} DecodeEncodeField(f: Field)
    ensures DecodeField(EncodeField(f)) == Some(f)
  {
    match f.kind
    case PrimitiveKind(p) =>
      EncodedFieldMembers(f);
      match p {
        case StringType =>
        case NumberType =>
        case BooleanType =>
      }
    case UnionKind(ps) =>
      EncodedFieldMembers(f);
      DecodeEncodePrimitives(ps);
    case ArrayKind(items) =>
      DecodeEncodeField(items);
      DecodeEncodedArray(f);
    case ObjectKind(props) =>
      forall k | k in props ensures DecodeField(EncodeField(props[k])) == Some(props[k]) {
        DecodeEncodeField(props[k]);
      }
      DecodeEncodedObject(f);
  }

  lemma DecodeEncodeTemplate(t: ConfigTemplate)
    ensures DecodeTemplate(EncodeTemplate(t)) == Some(t)
  {
    var m := EncodeTemplate(t).fields;
    forall k | k in m ensures DecodeField(m[k]) == Some(t[k]) {
      DecodeEncodeField(t[k]);
    }
    var decoded := map k | k in m :: DecodeField(m[k]).value;
    assert decoded.Keys == t.Keys;
    assert decoded == t;
  }

  /** An array or object type is never accepted inside a union. */
  lemma CompositeNeverInUnion(m: map<string, Json>, i: int)
    requires "type" in m && m["type"].JArray? && 0 <= i < |m["type"].items|
    requires m["type"].items[i] in [JString("array"), JString("object")]
    ensures DecodeField(JObject(m)).None?
  {
    var items := m["type"].items;
    assert DecodePrimitive(items[i]).None?;
  }

  /** `optional` is either absent or `true`; any other value is not a template field. */
  lemma OptionalIsAbsentOrTrue(m: map<string, Json>)
    requires "optional" in m && m["optional"] != JBool(true)
    ensures DecodeField(JObject(m)).None?
  {
  }

  /** An array field needs exactly one `items` template: a missing one or a list of them is refused. */
  lemma ArrayFieldHasOneItemTemplate(m: map<string, Json>)
    requires "type" in m && m["type"] == JString("array")
    requires "items" !in m || m["items"].JArray?
    ensures DecodeField(JObject(m)).None?
  {
  }

  // ---------------------------------------------------------------------------
  // Plugin modules

  /** A JavaScript value as far as plugin loading looks at it: missing, a function, or plain data. */
  datatype JsValue = Undefined | Function(id: nat) | Data(json: Json)

  /** The exports object of a module; an absent key reads as `undefined`. */
  type Exports = map<string, JsValue>

  function Get(e: Exports, key: string): JsValue
  {
    if key in e then e[key] else Undefined
  }

  /**
   * A plugin as the rest of the server sees it: a push handler, and an optional
   * display name and configuration template. The template is kept as the raw
   * value the module exported, because nothing checks it against the template type.
   */
  datatype Plugin = Plugin(displayName: Option<string>, configTemplate: JsValue, handlePush: nat)

  /** `typeof v === "string"`. */
  predicate IsStringValue(v: JsValue) {
    v.Data? && v.json.JString?
  }

  /** Reads an exports object as a `Plugin`; only a function-valued `handle_push` is required. */
  function AsPlugin(e: Exports): (p: Option<Plugin>)
    ensures p.Some? <==> Get(e, "handle_push").Function?
    ensures p.Some? ==> p.value.configTemplate == Get(e, "config_template")
    ensures p.Some? && p.value.displayName.Some? ==> Get(e, "display_name") == Data(JString(p.value.displayName.value))
    ensures p.Some? && p.value.displayName.None? ==> !IsStringValue(Get(e, "display_name"))
  {
    match Get(e, "handle_push")
    case Function(id) =>
      var name := match Get(e, "display_name") case Data(JString(n)) => Some(n) case _ => None;
      Some(Plugin(name, Get(e, "config_template"), id))
    case _ => None
  }
}

=== FILE: wrappers.dfy ===
/** Option and Result types shared by every module of the model. */
module Wrappers {

  /** A value that may be missing: an absent object key or a failed parse. */
  datatype Option<+T> = None | Some(value: T) {
    function GetOr(default: T): T {
      match this
      case Some(v) => v
      case None => default
    }
  }

  /** The outcome of an operation that the source lets throw. */
  datatype Result<+R, +E> = Success(value: R) | Failure(error: E)
}
